=== FILE: README.md ===
# Help screen of the Magit-style VS Code extension

This project models the help screen builder of `HelpView` and proves properties of the model. It has four pure steps:

- **Key-chord normalisation** (`keybindingToDisplayKey`, module `KeyDisplay`). A raw chord becomes the token the screen shows:
  - A chord that contains `shift+` or `shift-` followed by an ASCII letter anywhere shows its suffix from offset 6, upper-cased.
  - `enter` shows as `RET` and `tab` shows as `TAB`.
  - Any other chord is shown as written.
- **Binding resolution** (`generateBindings`, module `Bindings`). The extension's default `(command, key)` list is folded first to last into an empty table. Each entry writes its display token under its command. The user's override list is then folded into the same table. A later write wins, within one list and from defaults to overrides.
- **Column joining** (`joinTexts`, module `Columns`). Fragments are concatenated. Before each fragment after the first come as many spaces as the previous fragment falls short of the column width, and none when that fragment is as wide as the column or wider.
- **Help text composition** (`createHelpText`, module `HelpText`). A fixed template of 24 lines is joined by newlines. It has three titled sections:
  - rows of interpolated `"<token> <caption>"` cells, joined at width 19 or 17;
  - one single cell;
  - key rows, where the bare token and a description are joined at width 9.

Module `Strings` holds the shared vocabulary:

- `Spaces`, a run of blanks;
- `SumLengths`;
- `OccursAt`, which says that a piece of text sits at a given offset of a string;
- small facts about `OccursAt` under concatenation.

The layout properties of the composed text are stated with `OccursAt` at computed offsets. Each such lemma is proved once for an arbitrary template `tpl` and then applied to the real `Template`.

Two details of the source shape the model:

- A missing command behaves differently in the two kinds of row:
  - In an interpolated cell it renders as the text `undefined` (src/views/helpView.ts:66-78). `Interpolate` models this, and `UndefinedCellIn`, `UndefinedSingleIn`, `UndefinedCell` and `UndefinedSingle` state where `undefined` and the caption land in the text.
  - A key row passes the missing value itself to `joinTexts`, and reading its `prev.length` throws (src/views/helpView.ts:33, 81-88). `Renderable` requires the commands of key rows to be present.
- Key rows pass the bare token and the description to `joinTexts` as two separate fragments. Interpolated rows pass one `"<token> <caption>"` fragment per cell.

The shift rule finds the chord anywhere in the string but always cuts at offset 6. So `ctrl+shift+b` shows as `HIFT+B`. The model keeps this behaviour, and `DisplayKeyModifiedShiftExample` states it.

## Model

| member | source | states |
|---|---|---|
| KeyDisplay.UpperChar | src/views/helpView.ts:41 | upper-casing one character: a lower-case ASCII letter becomes its capital (32 code points lower), every other character stays, and no result is a lower-case letter |
| KeyDisplay.UpperAscii | src/views/helpView.ts:41 | upper-casing a string keeps its length, maps each character through `UpperChar`, and leaves no lower-case ASCII letter in the result |
| KeyDisplay.UpperAsciiFixed | src/views/helpView.ts:41 | upper-casing leaves a string unchanged if and only if it holds no lower-case ASCII letter |
| KeyDisplay.UpperAsciiIdempotent | src/views/helpView.ts:41 | upper-casing an upper-cased string changes nothing |
| KeyDisplay.ShiftChordFrom | src/views/helpView.ts:40 | the search succeeds exactly when some offset at or after `from` starts `shift`, then `+` or `-`, then an ASCII letter |
| KeyDisplay.DisplayKey | src/views/helpView.ts:39-48 | with a shift chord anywhere: the upper-cased suffix from offset 6, of length `|bind| - 6`; otherwise `enter` gives `RET`, `tab` gives `TAB`, anything else is returned unchanged |
| KeyDisplay.UpperHasNoShiftChord | src/views/helpView.ts:40-41 | an upper-cased string never matches the shift rule |
| KeyDisplay.DisplayKeyIdempotent | src/views/helpView.ts:39-48 | normalising a display token again changes nothing |
| KeyDisplay.DisplayKeyShiftExamples | src/views/helpView.ts:40-41 | `shift+b` shows as `B` and `shift-k` as `K` |
| KeyDisplay.DisplayKeyShiftEnterExample | src/views/helpView.ts:40-41 | `shift+enter` shows as `ENTER`: the shift rule wins over the named keys |
| KeyDisplay.DisplayKeyModifiedShiftExample | src/views/helpView.ts:40-41 | `ctrl+shift+b` shows as `HIFT+B`, because the match is found anywhere but the cut is always at offset 6 |
| KeyDisplay.DisplayKeyPlainExamples | src/views/helpView.ts:42-47 | `enter` shows as `RET`, `tab` as `TAB`, `ctrl+x` unchanged |
| Bindings.LastIndex | src/views/helpView.ts:51-59 | for a command the list names, the index of its last entry: that entry names it and no later one does |
| Bindings.Fold | src/views/helpView.ts:51-54 | one `reduce` over a list: the table's commands afterwards are the earlier ones plus every command the list names |
| Bindings.GenerateBindings | src/views/helpView.ts:50-62 | the resolved table's commands are exactly the union of the defaults' and the overrides' commands |
| Bindings.FoldLeavesOthers | src/views/helpView.ts:51-54 | a command the list never names is neither added nor changed by the fold |
| Bindings.FoldLastWins | src/views/helpView.ts:51-54 | after the fold a named command holds the display token of its last entry in the list |
| Bindings.OverrideWins | src/views/helpView.ts:56-59 | a command in the overrides shows the token of its last override entry, whatever the defaults say |
| Bindings.DefaultRetained | src/views/helpView.ts:50-59 | a command absent from the overrides shows the token of its last default entry |
| Bindings.GenerateBindingsMeaning | src/views/helpView.ts:50-62 | the folded table equals the fold-free reference: exactly the commands of both lists, each with the token of its last override entry if it has one and of its last default entry otherwise |
| Bindings.OverridePrecedenceExample | src/views/helpView.ts:56-59 | an override entry replaces the default entry for the same command |
| Bindings.DefaultRetainedExample | src/views/helpView.ts:51-54 | with no overrides the default token stays |
| Bindings.LaterEntryWinsExample | src/views/helpView.ts:51-54 | within one list the later entry for a command wins |
| Columns.Padding | src/views/helpView.ts:33 | the previous fragment and its padding together fill the column, or the fragment alone overflows it and gets no padding: `max(0, spacing - |prev|)` spaces |
| Columns.JoinTexts | src/views/helpView.ts:27-37 | no fragments give the empty string; otherwise the line is as long as all fragments plus the padding after each fragment but the last |
| Columns.OffsetNext | src/views/helpView.ts:33-34 | each fragment starts where the previous fragment and its padding end |
| Columns.JoinTextsLength | src/views/helpView.ts:27-36 | the line ends with the last fragment, right after that fragment's offset |
| Columns.JoinTextsSplit | src/views/helpView.ts:29-35 | the line of two or more fragments is the line of all but the last, the padding after the second-to-last fragment, then the last fragment |
| Columns.JoinTextsPrefix | src/views/helpView.ts:29-35 | joining the first `k` fragments gives a prefix of the whole line: later iterations only append |
| Columns.LastFragmentAt | src/views/helpView.ts:34 | the last fragment sits at its offset at the end of the line |
| Columns.FragmentAt | src/views/helpView.ts:28-35 | every fragment appears unchanged at its offset |
| Columns.PaddingBeforeLast | src/views/helpView.ts:33-34 | the gap before the last fragment is the padding of spaces owed to the fragment before it |
| Columns.PaddingAt | src/views/helpView.ts:33-34 | the gap after every fragment but the last is exactly its padding of spaces |
| Columns.JoinTextsLayout | src/views/helpView.ts:27-37 | the layout fixes every character: each fragment is at its offset, each gap is its padding of spaces, and the line ends with the last fragment |
| Columns.FittingWidth | src/views/helpView.ts:33 | fragments that each fit the width take exactly one column width each |
| Columns.ColumnsAligned | src/views/helpView.ts:33-34 | when all fragments but the last fit, fragment `i` starts at `i * spacing` and the line is `(n - 1) * spacing + |last|` long |
| Columns.OverflowAdjacent | src/views/helpView.ts:33-34 | after a fragment at least as wide as the column, the next fragment follows it directly |
| Columns.JoinTextsShortLists | src/views/helpView.ts:28 | no fragments give `""`; one fragment is returned unchanged |
| Columns.JoinTextsExamples | src/views/helpView.ts:33-34 | `ab` at width 9 is padded with 7 spaces; `abcdef` at width 3 is followed directly by the next fragment |
| HelpText.Compose | src/views/helpView.ts:64-89 | the text of a template is as long as its rendered lines plus one newline between each pair, and empty for no lines |
| HelpText.TemplateShape | src/views/helpView.ts:65-88 | the template has 24 lines; the three titles are on lines 0, 10 and 15, and lines 9 and 14 are empty |
| HelpText.JoinLines | src/views/helpView.ts:65-88 | the lines joined by newlines are as long as all lines plus one newline between each pair |
| HelpText.LineOffsetNext | src/views/helpView.ts:65-88 | each line starts right after the previous line and its newline |
| HelpText.JoinLinesPrefix | src/views/helpView.ts:65-88 | joining the first `m` lines gives a prefix of the whole text |
| HelpText.JoinLinesSplit | src/views/helpView.ts:65-88 | the text of two or more lines is the text of all but the last, a newline, then the last line |
| HelpText.LastLineAt | src/views/helpView.ts:88 | the last line ends the text, at its offset |
| HelpText.NewlineBeforeLast | src/views/helpView.ts:87-88 | a newline separates the second-to-last line from the last |
| HelpText.LineAt | src/views/helpView.ts:65-88 | every line sits at its offset, followed by a newline unless it is the last |
| HelpText.NewlineAfter | src/views/helpView.ts:65-88 | every line but the last is followed by a newline |
| HelpText.BlankBefore | src/views/helpView.ts:73-75 | an empty line puts two consecutive newlines just before the line after it |
| HelpText.CreateHelpText | src/views/helpView.ts:64-89 | the text opens with `Popup and dwim commands`; `Applying changes` and `Essential commands` start their lines further on, in that order |
| HelpText.TitleLineIn | src/views/helpView.ts:74-80 | a title line shows its title at its offset, followed by a newline, and preceded by two newlines after an empty line |
| HelpText.SectionSeparatedIn | src/views/helpView.ts:73-80 | a title after an empty line reads `\n\n<title>\n` |
| HelpText.SectionSeparated | src/views/helpView.ts:73-80 | in the help text, each section title after an empty line has two newlines before it and one after it |
| HelpText.InComposed | src/views/helpView.ts:65-88 | whatever a rendered line contains appears in the text, shifted by that line's start |
| HelpText.KeyRowLayout | src/views/helpView.ts:81-88 | a key row is the indent, the token, the spaces it falls short of 9 by, then the description; a longer token is followed directly by the description |
| HelpText.KeyRowCells | src/views/helpView.ts:81-88 | within its line, a key row whose token fits shows the token right after the indent and the description 9 columns after the token |
| HelpText.KeyRowColumnsIn | src/views/helpView.ts:81-88 | the same in a text composed from any template |
| HelpText.KeyRowTokenIn | src/views/helpView.ts:81-88 | in a text composed from any template, a key row shows its token right after the indent, whatever the token's length |
| HelpText.KeyRowToken | src/views/helpView.ts:81-88 | in the help text, each Essential row shows its token right after the indent |
| HelpText.KeyRowDescription | src/views/helpView.ts:81-88 | in the help text, each Essential row whose token fits shows its description 9 columns after the token |
| HelpText.RowCellPlaced | src/views/helpView.ts:66-77 | within its line, cell `j` of an entry row, fitting or not, starts after the indent at the offset `joinTexts` gives it: the earlier cells and their paddings come before it |
| HelpText.RowGap | src/views/helpView.ts:33-34 | within its line, every cell of an entry row but the last is followed by the blanks that fill it up to the row's width, or by none when it overflows |
| HelpText.RowLength | src/views/helpView.ts:66-77 | an entry row with cells ends with its last cell: the line is the indent, the offset of the last cell, and the last cell long |
| HelpText.RowLayout | src/views/helpView.ts:66-77 | the whole layout of an entry row, fitting or not: every cell at its offset after the indent, the padding after each cell but the last, and the line ending with the last cell |
| HelpText.RowCells | src/views/helpView.ts:66-77 | within its line, every cell of an entry row whose cells fit is on the column grid at once: cell `j` at `j` widths after the indent, for all `j` together |
| HelpText.RowCellAt | src/views/helpView.ts:66-77 | within its line, cell `j` of an entry row whose cells fit starts `j` widths after the indent |
| HelpText.RowCellParts | src/views/helpView.ts:66-77 | within its line, cell `j` of an entry row whose cells fit shows its command's token `j` widths after the indent, and its caption one blank after the token |
| HelpText.RowCellIn | src/views/helpView.ts:66-77 | the same for one cell in a text composed from any template |
| HelpText.UndefinedCellIn | src/views/helpView.ts:66-77 | in a text composed from any template, an entry cell whose command the table lacks still renders: `undefined` at its cell offset, its caption one blank later |
| HelpText.UndefinedSingleIn | src/views/helpView.ts:78 | in a text composed from any template, a single-cell line whose command the table lacks reads `undefined`, a blank and its caption after the indent |
| HelpText.UndefinedCell | src/views/helpView.ts:66-77 | in the help text, in an entry row whose cells fit, a cell whose command the table lacks shows `undefined` `j` widths after the indent and its caption one blank later; the text renders as long as the key-row commands are present |
| HelpText.UndefinedSingle | src/views/helpView.ts:78 | in the help text, a table without the discard line's command shows that line as `undefined` and its caption |
| HelpText.RowAlignedIn | src/views/helpView.ts:66-77 | the same for every cell of the row |
| HelpText.RowAligned | src/views/helpView.ts:66-77 | in the help text, the cells of each entry row whose cells fit are aligned at width 19 or 17 after the indent |
| HelpText.DefaultsCoverTemplate | src/views/helpView.ts:17-18 | if the defaults name every command the template uses, the resolved table renders whatever the overrides are, and no lookup falls back to `undefined` |

## Left out

- The constructor, `DocumentView`/`TextView`/`addSubview`, `UriPath` and the `isHighlightable`/`needsUpdate` flags are left out. They are view-framework plumbing (src/views/helpView.ts:8-21). No member computes the constructor's `createHelpText(generateBindings(user))`; only the lemma `DefaultsCoverTemplate` relates the two steps.
- `encodeLocation` is left out. It is a wrapper over `Uri.parse` and the URI scheme constant, and neither is part of this model (src/views/helpView.ts:23-25).
- The `package.json` import is not modelled. The default binding list is the `defaults` parameter of `GenerateBindings` (src/views/helpView.ts:6, 51).
- The regular expression engine is not modelled. The test is a plain left-to-right substring search. The `g` flag has no effect because the literal is created afresh on every call, so the search always starts at offset 0.
- UpperChar, UpperAscii: models `toLocaleUpperCase` for ASCII letters only. Locale- and Unicode-dependent case mappings are out of scope, for example Turkish dotted `i` or `ß` becoming `SS`.
- String lengths and offsets count Dafny characters, but JavaScript counts UTF-16 code units. Text outside the Basic Multilingual Plane therefore changes the column widths. It also moves the `substring(6)` cut of the shift rule when such a character comes before offset 6 (src/views/helpView.ts:41).
- Renderable: a key row whose command is missing from the table makes the source throw. The model does not model the throw; it requires those commands to be present. A missing command in an interpolated cell is modelled and renders `undefined`.
- The `any`-typed inputs are modelled only as strings. Override entries without `command` or `key` fields, or with non-string values, are not modelled: a `Binding` always holds two strings.
- CreateHelpText: states where each title starts, not that it occurs only once. A display token taken from a user override can itself contain a title's text.
- CreateHelpText: composing the same table twice gives the same text by purity alone, so no lemma states it.

=== FILE: bindings.dfy ===
/**
  Resolution of the command-to-key table shown on the help screen.

  The extension's default bindings are folded, first to last, into an empty
  table, each entry storing the display token of its key under its command;
  the user's override bindings are then folded, first to last, into the same
  table. A later write to a command replaces an earlier one, within a list
  and from defaults to overrides.
 */
module Bindings {
  import opened KeyDisplay

  /** One `(command, key)` entry of a keybinding list. */
  datatype Binding = Binding(command: string, key: string)

  /** Command identifier to display token. */
  type BindingMap = map<string, string>

  /** The commands named anywhere in `bs`. */
  function Commands(bs: seq<Binding>): set<string>
  {
    set i | 0 <= i < |bs| :: bs[i].command
  }

  /** `bs[i]` is the last entry of `bs` for `command`. */
  predicate IsLastFor(bs: seq<Binding>, command: string, i: int)
  {
    && 0 <= i < |bs|
    && bs[i].command == command
    && forall j :: i < j < |bs| ==> bs[j].command != command
  }

  /** Where the last entry for a named command sits, found from the back. */
  function LastIndex(bs: seq<Binding>, command: string): (i: nat)
    requires command in Commands(bs)
    ensures IsLastFor(bs, command, i)
    decreases |bs|
  {
    var n := |bs|;
    if bs[n - 1].command == command then n - 1
    else
      assert command in Commands(bs[..n - 1]) by {
        var k :| 0 <= k < n && bs[k].command == command;
        assert bs[..n - 1][k] == bs[k];
      }
      LastIndex(bs[..n - 1], command)
  }

  /** The commands of a non-empty list: its head's, and its tail's. */
  lemma CommandsCons(bs: seq<Binding>)
    requires |bs| > 0
    ensures Commands(bs) == {bs[0].command} + Commands(bs[1..])
  {
  }

  /** One `reduce` over `bs`: every entry, in order, writes its display token under its command. */
  function Fold(m: BindingMap, bs: seq<Binding>): (r: BindingMap)
    ensures r.Keys == m.Keys + Commands(bs)
    decreases |bs|
  {
    if |bs| == 0 then m
    else
      CommandsCons(bs);
      Fold(m[bs[0].command := DisplayKey(bs[0].key)], bs[1..])
  }

  /** The table the help screen uses: defaults first, then the user's overrides. */
  function GenerateBindings(defaults: seq<Binding>, overrides: seq<Binding>): (r: BindingMap)
    ensures r.Keys == Commands(defaults) + Commands(overrides)
  {
    Fold(Fold(map[], defaults), overrides)
  }

  /** A command no entry of `bs` names keeps whatever `m` said about it. */
  lemma {:induction false} FoldLeavesOthers(m: BindingMap, bs: seq<Binding>, command: string)
    requires command !in Commands(bs)
    ensures command in Fold(m, bs) <==> command in m
    ensures command in m ==> Fold(m, bs)[command] == m[command]
    decreases |bs|
  {
    if |bs| > 0 {
      assert bs[0].command != command;
      CommandsCons(bs);
      FoldLeavesOthers(m[bs[0].command := DisplayKey(bs[0].key)], bs[1..], command);
    }
  }

  /** After the fold, a command named in `bs` holds the display token of its last entry. */
  lemma {:induction false} FoldLastWins(m: BindingMap, bs: seq<Binding>, command: string, i: int)
    requires IsLastFor(bs, command, i)
    ensures command in Fold(m, bs)
    ensures Fold(m, bs)[command] == DisplayKey(bs[i].key)
    decreases |bs|
  {
    var m' := m[bs[0].command := DisplayKey(bs[0].key)];
    if i == 0 {
      CommandsCons(bs);
      FoldLeavesOthers(m', bs[1..], command);
    } else {
      assert IsLastFor(bs[1..], command, i - 1);
      FoldLastWins(m', bs[1..], command, i - 1);
    }
  }

  /** An override wins: the command shows the token of its last override entry. */
  lemma OverrideWins(defaults: seq<Binding>, overrides: seq<Binding>, command: string, i: int)
    requires IsLastFor(overrides, command, i)
    ensures command in GenerateBindings(defaults, overrides)
    ensures GenerateBindings(defaults, overrides)[command] == DisplayKey(overrides[i].key)
  {
    FoldLastWins(Fold(map[], defaults), overrides, command, i);
  }

  /** Without an override, a command shows the token of its last default entry. */
  lemma DefaultRetained(defaults: seq<Binding>, overrides: seq<Binding>, command: string, i: int)
    requires command !in Commands(overrides)
    requires IsLastFor(defaults, command, i)
    ensures command in GenerateBindings(defaults, overrides)
    ensures GenerateBindings(defaults, overrides)[command] == DisplayKey(defaults[i].key)
  {
    FoldLastWins(map[], defaults, command, i);
    FoldLeavesOthers(Fold(map[], defaults), overrides, command);
  }

  /**
    Reference meaning of the resolved table, stated without the fold: a
    command's token comes from its last override entry when it has one, and
    from its last default entry otherwise.
   */
  function ExpectedToken(defaults: seq<Binding>, overrides: seq<Binding>, command: string): string
    requires command in Commands(defaults) + Commands(overrides)
  {
    if command in Commands(overrides) then DisplayKey(overrides[LastIndex(overrides, command)].key)
    else DisplayKey(defaults[LastIndex(defaults, command)].key)
  }

  /** The folded table agrees with the reference meaning at every command, and nowhere else. */
  lemma GenerateBindingsMeaning(defaults: seq<Binding>, overrides: seq<Binding>)
    ensures GenerateBindings(defaults, overrides).Keys == Commands(defaults) + Commands(overrides)
    ensures forall command :: command in GenerateBindings(defaults, overrides) ==>
      GenerateBindings(defaults, overrides)[command] == ExpectedToken(defaults, overrides, command)
  {
    forall command | command in GenerateBindings(defaults, overrides)
      ensures GenerateBindings(defaults, overrides)[command] == ExpectedToken(defaults, overrides, command)
    {
      if command in Commands(overrides) {
        OverrideWins(defaults, overrides, command, LastIndex(overrides, command));
      } else {
        DefaultRetained(defaults, overrides, command, LastIndex(defaults, command));
      }
    }
  }

  /** An override replaces the default for the same command. */
  lemma OverridePrecedenceExample(command: string)
    ensures GenerateBindings([Binding(command, "a")], [Binding(command, "b")])[command] == DisplayKey("b")
  {
    OverrideWins([Binding(command, "a")], [Binding(command, "b")], command, 0);
  }

  /** With no overrides the default stays. */
  lemma DefaultRetainedExample(command: string)
    ensures GenerateBindings([Binding(command, "a")], [])[command] == DisplayKey("a")
  {
    DefaultRetained([Binding(command, "a")], [], command, 0);
  }

  /** Within one list the later entry wins too. */
  lemma LaterEntryWinsExample(command: string)
    ensures GenerateBindings([Binding(command, "shift+a"), Binding(command, "tab")], [])[command] == "TAB"
  {
    DefaultRetained([Binding(command, "shift+a"), Binding(command, "tab")], [], command, 1);
  }
}

=== FILE: columns.dfy ===
/**
  Column joining: fragments of one help-screen line are concatenated, and
  before each fragment after the first come as many spaces as the previous
  fragment falls short of the column width (none when it is as wide or
  wider). Only the immediately preceding fragment decides the padding.
 */
module Columns {
  import opened Strings

  function Max(a: int, b: int): int
  {
    if a < b then b else a
  }

  /** The spaces inserted after `prev`: it and its padding fill the column, or `prev` alone overflows it. */
  function Padding(spacing: int, prev: string): (n: nat)
    ensures |prev| + n == Max(spacing, |prev|)
  {
    if |prev| <= spacing then spacing - |prev| else 0
  }

  /** The sum of the paddings that follow each of `ts`. */
  function SumPaddings(spacing: int, ts: seq<string>): nat
  {
    if |ts| == 0 then 0 else SumPaddings(spacing, ts[..|ts| - 1]) + Padding(spacing, ts[|ts| - 1])
  }

  /** Where fragment `i` starts: every earlier fragment and its padding come before it. */
  function Offset(spacing: int, texts: seq<string>, i: nat): nat
    requires i <= |texts|
  {
    SumLengths(texts[..i]) + SumPaddings(spacing, texts[..i])
  }

  /** The joined line; each step appends the previous fragment's padding and the next fragment. */
  function JoinTexts(spacing: int, texts: seq<string>): (r: string)
    ensures |texts| == 0 ==> r == ""
    ensures |texts| > 0 ==> |r| == SumLengths(texts) + SumPaddings(spacing, texts[..|texts| - 1])
    decreases |texts|
  {
    if |texts| == 0 then ""
    else if |texts| == 1 then texts[0]
    else
      var n := |texts|;
      assert texts[..n - 1][..n - 2] == texts[..n - 2];
      JoinTexts(spacing, texts[..n - 1]) + Spaces(Padding(spacing, texts[n - 2])) + texts[n - 1]
  }

  /** Fragment `i + 1` starts where fragment `i` and its padding end. */
  lemma OffsetNext(spacing: int, texts: seq<string>, i: nat)
    requires i < |texts|
    ensures Offset(spacing, texts, i + 1) == Offset(spacing, texts, i) + |texts[i]| + Padding(spacing, texts[i])
  {
    assert texts[..i + 1][..i] == texts[..i];
  }

  /** Offsets inside a prefix of the fragments are offsets in the whole list. */
  lemma OffsetOfPrefix(spacing: int, texts: seq<string>, k: nat, i: nat)
    requires i <= k <= |texts|
    ensures Offset(spacing, texts[..k], i) == Offset(spacing, texts, i)
  {
    assert texts[..k][..i] == texts[..i];
  }

  /** The joined line ends with the last fragment, right after that fragment's offset. */
  lemma JoinTextsLength(spacing: int, texts: seq<string>)
    requires |texts| > 0
    ensures |JoinTexts(spacing, texts)| == Offset(spacing, texts, |texts| - 1) + |texts[|texts| - 1]|
  {
  }

  /** A joined line of two or more fragments: the line of all but the last, padding, the last. */
  lemma JoinTextsSplit(spacing: int, texts: seq<string>)
    requires |texts| > 1
    ensures var n := |texts|;
      && JoinTexts(spacing, texts) == JoinTexts(spacing, texts[..n - 1]) + Spaces(Padding(spacing, texts[n - 2])) + texts[n - 1]
      && |JoinTexts(spacing, texts[..n - 1])| == Offset(spacing, texts, n - 2) + |texts[n - 2]|
      && Offset(spacing, texts, n - 1) == Offset(spacing, texts, n - 2) + |texts[n - 2]| + Padding(spacing, texts[n - 2])
  {
    var n := |texts|;
    JoinTextsLength(spacing, texts[..n - 1]);
    OffsetOfPrefix(spacing, texts, n - 1, n - 2);
    OffsetNext(spacing, texts, n - 2);
  }

  /** Joining the first `k` fragments gives a prefix of the joined line. */
  lemma {:induction false} JoinTextsPrefix(spacing: int, texts: seq<string>, k: nat)
    requires k <= |texts|
    ensures JoinTexts(spacing, texts[..k]) <= JoinTexts(spacing, texts)
    decreases |texts|
  {
    var n := |texts|;
    if k == n {
      assert texts[..n] == texts;
    } else if k > 0 {
      var p := texts[..n - 1];
      JoinTextsPrefix(spacing, p, k);
      assert p[..k] == texts[..k];
      JoinTextsSplit(spacing, texts);
    }
  }

  /** The last fragment ends the joined line, at its offset. */
  lemma LastFragmentAt(spacing: int, texts: seq<string>)
    requires |texts| > 0
    ensures OccursAt(JoinTexts(spacing, texts), texts[|texts| - 1], Offset(spacing, texts, |texts| - 1))
  {
  }

  /** Fragment `i` of the joined line sits at its offset. */
  lemma FragmentAt(spacing: int, texts: seq<string>, i: nat)
    requires i < |texts|
    ensures OccursAt(JoinTexts(spacing, texts), texts[i], Offset(spacing, texts, i))
  {
    var q := texts[..i + 1];
    LastFragmentAt(spacing, q);
    assert q[i] == texts[i];
    OffsetOfPrefix(spacing, texts, i + 1, i);
    JoinTextsPrefix(spacing, texts, i + 1);
    OccursInExtension(JoinTexts(spacing, q), JoinTexts(spacing, texts), texts[i], Offset(spacing, texts, i));
  }

  /** The gap after the second-to-last fragment is its padding of spaces. */
  lemma PaddingBeforeLast(spacing: int, texts: seq<string>)
    requires |texts| > 1
    ensures var i := |texts| - 2;
      OccursAt(JoinTexts(spacing, texts), Spaces(Padding(spacing, texts[i])), Offset(spacing, texts, i) + |texts[i]|)
  {
    var n := |texts|;
    JoinTextsSplit(spacing, texts);
    OccursInMiddle(JoinTexts(spacing, texts[..n - 1]), Spaces(Padding(spacing, texts[n - 2])), texts[n - 1]);
  }

  /** The gap after fragment `i`, when another fragment follows, is its padding of spaces. */
  lemma PaddingAt(spacing: int, texts: seq<string>, i: nat)
    requires i < |texts| - 1
    ensures OccursAt(JoinTexts(spacing, texts), Spaces(Padding(spacing, texts[i])), Offset(spacing, texts, i) + |texts[i]|)
  {
    var q := texts[..i + 2];
    PaddingBeforeLast(spacing, q);
    assert q[i] == texts[i];
    OffsetOfPrefix(spacing, texts, i + 2, i);
    JoinTextsPrefix(spacing, texts, i + 2);
    OccursInExtension(JoinTexts(spacing, q), JoinTexts(spacing, texts), Spaces(Padding(spacing, texts[i])),
                      Offset(spacing, texts, i) + |texts[i]|);
  }

  /**
    The layout of a joined line: every fragment sits at its offset, the gap
    after each fragment but the last is its padding of spaces, and the line
    ends with the last fragment. Together these fix every character.
   */
  lemma JoinTextsLayout(spacing: int, texts: seq<string>)
    ensures forall i :: 0 <= i < |texts| ==>
      OccursAt(JoinTexts(spacing, texts), texts[i], Offset(spacing, texts, i))
    ensures forall i :: 0 <= i < |texts| - 1 ==>
      OccursAt(JoinTexts(spacing, texts), Spaces(Padding(spacing, texts[i])), Offset(spacing, texts, i) + |texts[i]|)
    ensures |texts| > 0 ==>
      |JoinTexts(spacing, texts)| == Offset(spacing, texts, |texts| - 1) + |texts[|texts| - 1]|
  {
    forall i | 0 <= i < |texts|
      ensures OccursAt(JoinTexts(spacing, texts), texts[i], Offset(spacing, texts, i))
    {
      FragmentAt(spacing, texts, i);
    }
    forall i | 0 <= i < |texts| - 1
      ensures OccursAt(JoinTexts(spacing, texts), Spaces(Padding(spacing, texts[i])), Offset(spacing, texts, i) + |texts[i]|)
    {
      PaddingAt(spacing, texts, i);
    }
    if |texts| > 0 {
      JoinTextsLength(spacing, texts);
    }
  }

  /** Fragments that all fit their column add up to one column width each. */
  lemma {:induction false} FittingWidth(spacing: int, ts: seq<string>)
    requires forall i :: 0 <= i < |ts| ==> |ts[i]| <= spacing
    ensures SumLengths(ts) + SumPaddings(spacing, ts) == |ts| * spacing
    decreases |ts|
  {
    if |ts| > 0 {
      FittingWidth(spacing, ts[..|ts| - 1]);
    }
  }

  /**
    Column alignment: when every fragment but the last fits the width,
    fragment `i` starts at `i * spacing`, and the line is as long as the
    full columns plus the last fragment.
   */
  lemma ColumnsAligned(spacing: int, texts: seq<string>)
    requires forall i :: 0 <= i < |texts| - 1 ==> |texts[i]| <= spacing
    ensures forall i :: 0 <= i < |texts| ==> Offset(spacing, texts, i) == i * spacing
    ensures |texts| > 0 ==> |JoinTexts(spacing, texts)| == (|texts| - 1) * spacing + |texts[|texts| - 1]|
  {
    forall i | 0 <= i < |texts|
      ensures Offset(spacing, texts, i) == i * spacing
    {
      FittingWidth(spacing, texts[..i]);
    }
    if |texts| > 0 {
      JoinTextsLength(spacing, texts);
    }
  }

  /** A fragment at least as wide as the column gets no padding: the next one follows directly. */
  lemma OverflowAdjacent(spacing: int, texts: seq<string>, i: nat)
    requires i < |texts| - 1
    requires |texts[i]| >= spacing
    ensures Offset(spacing, texts, i + 1) == Offset(spacing, texts, i) + |texts[i]|
  {
    OffsetNext(spacing, texts, i);
  }

  /** Joining no fragments gives the empty line; joining one gives that fragment. */
  lemma JoinTextsShortLists(spacing: int, t: string)
    ensures JoinTexts(spacing, []) == ""
    ensures JoinTexts(spacing, [t]) == t
  {
  }

  /** A short fragment is padded out to the width; a long one is not padded at all. */
  lemma JoinTextsExamples()
    ensures JoinTexts(9, ["ab", "refresh"]) == "ab       refresh"
    ensures JoinTexts(3, ["abcdef", "x"]) == "abcdefx"
  {
  }
}

=== FILE: help_text.dfy ===
/**
  The help screen's text: a fixed template of three titled sections whose
  rows show resolved display tokens next to their labels, laid out in
  columns by `JoinTexts`, one template line per text line.
 */
module HelpText {
  import opened Strings
  import opened Columns
  import opened Bindings

  /** A `"<token> <caption>"` cell: the command's token interpolated before its caption. */
  datatype Entry = Entry(command: string, caption: string)

  /**
    One line of the template: a section heading written as it is; an empty
    separator; entry cells joined into columns of `width`; one entry cell
    written directly after the indent; or the bare token of a command and a
    description, joined into columns of `KeyColumn`.
   */
  datatype Line =
    | Title(text: string)
    | Blank
    | Row(width: int, entries: seq<Entry>)
    | Single(entry: Entry)
    | KeyRow(command: string, description: string)

  /** The indent before every row. */
  const Indent: string := "  "

  /** Column width of every key row. */
  const KeyColumn: int := 9

  const PopupTitle: string := "Popup and dwim commands"
  const ApplyingTitle: string := "Applying changes"
  const EssentialTitle: string := "Essential commands"

  /** Template line numbers of the three section titles. */
  const PopupLine: nat := 0
  const ApplyingLine: nat := 10
  const EssentialLine: nat := 15

  /** The help screen, line by line. */
  const Template: seq<Line> := [
    Title(PopupTitle),
    Row(19, [Entry("magit.cherry-picking", "Cherry-pick"), Entry("magit.branching", "Branch"), Entry("magit.bisect", "Bisect")]),
    Row(19, [Entry("magit.commit", "Commit"), Entry("magit.diffing", "Diff"), Entry("magit.fetching", "Fetch")]),
    Row(19, [Entry("magit.pulling", "Pull"), Entry("magit.ignoring", "Ignore"), Entry("magit.logging", "Log")]),
    Row(19, [Entry("magit.merging", "Merge"), Entry("magit.remoting", "Remote"), Entry("magit.pushing", "Push")]),
    Row(19, [Entry("magit.rebasing", "Rebase"), Entry("magit.tagging", "Tag"), Entry("magit.reverting", "Revert")]),
    Row(19, [Entry("magit.resetting", "Reset"), Entry("magit.show-refs", "Show Refs"), Entry("magit.stashing", "Stash")]),
    Row(19, [Entry("magit.running", "Run"), Entry("magit.worktree", "Worktree"), Entry("magit.submodules", "Submodules")]),
    Row(19, [Entry("magit.process-log", "Process Log")]),
    Blank,
    Title(ApplyingTitle),
    Row(17, [Entry("magit.apply-at-point", "Apply"), Entry("magit.stage", "Stage"), Entry("magit.unstage", "Unstage")]),
    Row(17, [Entry("magit.reverse-at-point", "Reverse"), Entry("magit.stage-all", "Stage all"), Entry("magit.unstage-all", "Unstage all")]),
    Single(Entry("magit.discard-at-point", "Discard")),
    Blank,
    Title(EssentialTitle),
    KeyRow("magit.refresh", "refresh current buffer"),
    KeyRow("magit.toggle-fold", "toggle section at point"),
    KeyRow("magit.visit-at-point", "visit thing at point"),
    KeyRow("magit.process-log", "show git process view"),
    KeyRow("magit.quit", "exit / close magit view"),
    Blank,
    KeyRow("magit.move-next-entity", "Move cursor to next entity"),
    KeyRow("magit.move-previous-entity", "Move cursor to previous entity")
  ]

  /** Where the template's titles and separators sit. */
  lemma TemplateShape()
    ensures |Template| == 24
    ensures Template[PopupLine] == Title(PopupTitle)
    ensures Template[ApplyingLine] == Title(ApplyingTitle)
    ensures Template[EssentialLine] == Title(EssentialTitle)
    ensures Template[ApplyingLine - 1] == Blank && Template[EssentialLine - 1] == Blank
  {
  }

  /** The commands a template line refers to. */
  function LineCommands(line: Line): set<string>
  {
    match line
    case Title(_) => {}
    case Blank => {}
    case Row(_, es) => set j | 0 <= j < |es| :: es[j].command
    case Single(e) => {e.command}
    case KeyRow(command, _) => {command}
  }

  /** Every command the help screen's template refers to. */
  function TemplateCommands(): set<string>
  {
    set k, command | 0 <= k < |Template| && command in LineCommands(Template[k]) :: command
  }

  /** A template interpolation of a command: its token, or `undefined` when the table lacks it. */
  function Interpolate(c: BindingMap, command: string): (r: string)
    ensures command in c ==> r == c[command]
    ensures command !in c ==> r == "undefined"
  {
    if command in c then c[command] else "undefined"
  }

  function EntryText(c: BindingMap, e: Entry): string
  {
    Interpolate(c, e.command) + " " + e.caption
  }

  function EntryTexts(c: BindingMap, es: seq<Entry>): seq<string>
  {
    seq(|es|, j requires 0 <= j < |es| => EntryText(c, es[j]))
  }

  /** A key row hands the bare token to `JoinTexts`, which fails on a missing one. */
  predicate LineRenderable(c: BindingMap, line: Line)
  {
    line.KeyRow? ==> line.command in c
  }

  /** The table holds a token for every key row of `tpl`. */
  predicate Renderable(c: BindingMap, tpl: seq<Line>)
  {
    forall k :: 0 <= k < |tpl| ==> LineRenderable(c, tpl[k])
  }

  function RenderLine(c: BindingMap, line: Line): string
    requires LineRenderable(c, line)
  {
    match line
    case Title(t) => t
    case Blank => ""
    case Row(width, es) => Indent + JoinTexts(width, EntryTexts(c, es))
    case Single(e) => Indent + EntryText(c, e)
    case KeyRow(command, description) => Indent + JoinTexts(KeyColumn, [c[command], description])
  }

  /** Fragment `j`, joined after the indent, sits at its `JoinTexts` offset shifted by the indent. */
  lemma {:induction false} IndentedFragment(w: int, texts: seq<string>, j: nat)
    requires j < |texts|
    ensures OccursAt(Indent + JoinTexts(w, texts), texts[j], |Indent| + Offset(w, texts, j))
  {
    FragmentAt(w, texts, j);
    OccursAfter(Indent, JoinTexts(w, texts), texts[j], Offset(w, texts, j));
  }

  /** The padding after fragment `j`, joined after the indent, sits right after it. */
  lemma {:induction false} IndentedPadding(w: int, texts: seq<string>, j: nat)
    requires j < |texts| - 1
    ensures OccursAt(Indent + JoinTexts(w, texts), Spaces(Padding(w, texts[j])), |Indent| + Offset(w, texts, j) + |texts[j]|)
  {
    PaddingAt(w, texts, j);
    OccursAfter(Indent, JoinTexts(w, texts), Spaces(Padding(w, texts[j])), Offset(w, texts, j) + |texts[j]|);
  }

  /** Within its line, cell `j` of an entry row sits at its `JoinTexts` offset after the indent. */
  lemma {:induction false} RowCellPlaced(c: BindingMap, line: Line, j: nat)
    requires line.Row? && j < |line.entries|
    ensures OccursAt(RenderLine(c, line), EntryTexts(c, line.entries)[j],
                     |Indent| + Offset(line.width, EntryTexts(c, line.entries), j))
  {
    IndentedFragment(line.width, EntryTexts(c, line.entries), j);
  }

  /** Within its line, cell `j` of an entry row, when not the last, is followed by its padding of blanks. */
  lemma {:induction false} RowGap(c: BindingMap, line: Line, j: nat)
    requires line.Row? && j < |line.entries| - 1
    ensures OccursAt(RenderLine(c, line), Spaces(Padding(line.width, EntryTexts(c, line.entries)[j])),
                     |Indent| + Offset(line.width, EntryTexts(c, line.entries), j) + |EntryTexts(c, line.entries)[j]|)
  {
    IndentedPadding(line.width, EntryTexts(c, line.entries), j);
  }

  /** An entry row with cells ends with its last cell. */
  lemma {:induction false} RowLength(c: BindingMap, line: Line)
    requires line.Row? && |line.entries| > 0
    ensures |RenderLine(c, line)| == |Indent| + Offset(line.width, EntryTexts(c, line.entries), |line.entries| - 1)
                                     + |EntryText(c, line.entries[|line.entries| - 1])|
  {
  }

  /**
    The layout of an entry row, whether or not its cells fit: cell `j` sits at
    its `JoinTexts` offset after the indent, the gap after every cell but the
    last is its padding of blanks, and the line ends with the last cell.
   */
  lemma RowLayout(c: BindingMap, line: Line)
    requires line.Row?
    ensures forall j :: 0 <= j < |line.entries| ==>
      OccursAt(RenderLine(c, line), EntryTexts(c, line.entries)[j],
               |Indent| + Offset(line.width, EntryTexts(c, line.entries), j))
    ensures forall j :: 0 <= j < |line.entries| - 1 ==>
      OccursAt(RenderLine(c, line), Spaces(Padding(line.width, EntryTexts(c, line.entries)[j])),
               |Indent| + Offset(line.width, EntryTexts(c, line.entries), j) + |EntryTexts(c, line.entries)[j]|)
    ensures |line.entries| > 0 ==>
      |RenderLine(c, line)| == |Indent| + Offset(line.width, EntryTexts(c, line.entries), |line.entries| - 1)
                               + |EntryText(c, line.entries[|line.entries| - 1])|
  {
    forall j | 0 <= j < |line.entries|
      ensures OccursAt(RenderLine(c, line), EntryTexts(c, line.entries)[j],
                       |Indent| + Offset(line.width, EntryTexts(c, line.entries), j))
    {
      RowCellPlaced(c, line, j);
    }
    forall j | 0 <= j < |line.entries| - 1
      ensures OccursAt(RenderLine(c, line), Spaces(Padding(line.width, EntryTexts(c, line.entries)[j])),
                       |Indent| + Offset(line.width, EntryTexts(c, line.entries), j) + |EntryTexts(c, line.entries)[j]|)
    {
      RowGap(c, line, j);
    }
    if |line.entries| > 0 {
      RowLength(c, line);
    }
  }

  /** The rendered lines of `tpl`, one per template line. */
  function RenderLines(c: BindingMap, tpl: seq<Line>): seq<string>
    requires Renderable(c, tpl)
  {
    seq(|tpl|, k requires 0 <= k < |tpl| => RenderLine(c, tpl[k]))
  }

  /** Lines separated by newlines, as a multi-line template literal writes them. */
  function JoinLines(lines: seq<string>): (r: string)
    ensures |lines| > 0 ==> |r| == SumLengths(lines) + |lines| - 1
    decreases |lines|
  {
    if |lines| == 0 then ""
    else if |lines| == 1 then lines[0]
    else JoinLines(lines[..|lines| - 1]) + "\n" + lines[|lines| - 1]
  }

  /** Where line `k` starts: every earlier line and its newline come before it. */
  function LineOffset(lines: seq<string>, k: nat): nat
    requires k <= |lines|
  {
    SumLengths(lines[..k]) + k
  }

  /** Line `k + 1` starts right after line `k` and its newline. */
  lemma LineOffsetNext(lines: seq<string>, k: nat)
    requires k < |lines|
    ensures LineOffset(lines, k + 1) == LineOffset(lines, k) + |lines[k]| + 1
  {
    assert lines[..k + 1][..k] == lines[..k];
  }

  /** Line offsets inside a prefix of the lines are offsets in the whole list. */
  lemma LineOffsetOfPrefix(lines: seq<string>, m: nat, k: nat)
    requires k <= m <= |lines|
    ensures LineOffset(lines[..m], k) == LineOffset(lines, k)
  {
    assert lines[..m][..k] == lines[..k];
  }

  /** Joining the first `m` lines gives a prefix of the joined text. */
  lemma {:induction false} JoinLinesPrefix(lines: seq<string>, m: nat)
    requires m <= |lines|
    ensures JoinLines(lines[..m]) <= JoinLines(lines)
    decreases |lines|
  {
    var n := |lines|;
    if m == n {
      assert lines[..n] == lines;
    } else if m > 0 {
      var p := lines[..n - 1];
      JoinLinesPrefix(p, m);
      assert p[..m] == lines[..m];
    }
  }

  /** The joined text of two or more lines: all but the last, a newline, the last. */
  lemma JoinLinesSplit(lines: seq<string>)
    requires |lines| > 1
    ensures var n := |lines|;
      && JoinLines(lines) == JoinLines(lines[..n - 1]) + "\n" + lines[n - 1]
      && |JoinLines(lines[..n - 1])| == LineOffset(lines, n - 2) + |lines[n - 2]|
      && LineOffset(lines, n - 1) == LineOffset(lines, n - 2) + |lines[n - 2]| + 1
  {
    var n := |lines|;
    assert lines[..n - 1][..n - 2] == lines[..n - 2];
    LineOffsetNext(lines, n - 2);
  }

  /** The last line ends the joined text, at its offset. */
  lemma LastLineAt(lines: seq<string>)
    requires |lines| > 0
    ensures OccursAt(JoinLines(lines), lines[|lines| - 1], LineOffset(lines, |lines| - 1))
  {
    var n := |lines|;
    if n == 1 {
      assert lines[..0] == [];
    } else {
      JoinLinesSplit(lines);
      OccursInMiddle(JoinLines(lines[..n - 1]) + "\n", lines[n - 1], []);
      assert JoinLines(lines[..n - 1]) + "\n" + lines[n - 1] + [] == JoinLines(lines);
    }
  }

  /** The newline after the second-to-last line. */
  lemma NewlineBeforeLast(lines: seq<string>)
    requires |lines| > 1
    ensures OccursAt(JoinLines(lines), "\n", LineOffset(lines, |lines| - 2) + |lines[|lines| - 2]|)
  {
    var n := |lines|;
    JoinLinesSplit(lines);
    OccursInMiddle(JoinLines(lines[..n - 1]), "\n", lines[n - 1]);
  }

  /** Line `k` sits at its offset, and a newline follows it unless it is the last. */
  lemma LineAt(lines: seq<string>, k: nat)
    requires k < |lines|
    ensures OccursAt(JoinLines(lines), lines[k], LineOffset(lines, k))
    ensures k < |lines| - 1 ==> OccursAt(JoinLines(lines), "\n", LineOffset(lines, k) + |lines[k]|)
  {
    var q := lines[..k + 1];
    LastLineAt(q);
    assert q[k] == lines[k];
    LineOffsetOfPrefix(lines, k + 1, k);
    JoinLinesPrefix(lines, k + 1);
    OccursInExtension(JoinLines(q), JoinLines(lines), lines[k], LineOffset(lines, k));
    if k < |lines| - 1 {
      NewlineAfter(lines, k);
    }
  }

  /** The newline after line `k`, when another line follows. */
  lemma NewlineAfter(lines: seq<string>, k: nat)
    requires k < |lines| - 1
    ensures OccursAt(JoinLines(lines), "\n", LineOffset(lines, k) + |lines[k]|)
  {
    var q := lines[..k + 2];
    NewlineBeforeLast(q);
    assert q[k] == lines[k];
    LineOffsetOfPrefix(lines, k + 2, k);
    JoinLinesPrefix(lines, k + 2);
    OccursInExtension(JoinLines(q), JoinLines(lines), "\n", LineOffset(lines, k) + |lines[k]|);
  }

  /** An empty line `k - 1` after a line `k - 2` puts two newlines just before line `k`. */
  lemma {:induction false} BlankBefore(lines: seq<string>, k: nat)
    requires 2 <= k < |lines|
    requires lines[k - 1] == ""
    ensures OccursAt(JoinLines(lines), "\n\n", LineOffset(lines, k) - 2)
  {
    var at := LineOffset(lines, k - 2) + |lines[k - 2]|;
    LineOffsetNext(lines, k - 2);
    LineOffsetNext(lines, k - 1);
    assert at == LineOffset(lines, k) - 2;
    assert at + 1 == LineOffset(lines, k - 1) + |lines[k - 1]|;
    NewlineAfter(lines, k - 2);
    NewlineAfter(lines, k - 1);
    DoubleNewline(JoinLines(lines), at);
  }

  /** The text of template `tpl` filled in from the table `c`. */
  function Compose(c: BindingMap, tpl: seq<Line>): (r: string)
    requires Renderable(c, tpl)
    ensures |tpl| == 0 ==> r == ""
    ensures |tpl| > 0 ==> |r| == SumLengths(RenderLines(c, tpl)) + |tpl| - 1
  {
    JoinLines(RenderLines(c, tpl))
  }

  /**
    The help text. It opens with the first section title, and the other
    two titles follow at the starts of their template lines, in order.
   */
  function CreateHelpText(c: BindingMap): (r: string)
    requires Renderable(c, Template)
    ensures OccursAt(r, PopupTitle, 0)
    ensures OccursAt(r, ApplyingTitle, LineOffset(RenderLines(c, Template), ApplyingLine))
    ensures OccursAt(r, EssentialTitle, LineOffset(RenderLines(c, Template), EssentialLine))
    ensures 0 < LineOffset(RenderLines(c, Template), ApplyingLine) < LineOffset(RenderLines(c, Template), EssentialLine)
  {
    var lines := RenderLines(c, Template);
    TemplateShape();
    LineAt(lines, PopupLine);
    LineAt(lines, ApplyingLine);
    LineAt(lines, EssentialLine);
    SumLengthsMonotone(lines, ApplyingLine, EssentialLine);
    Compose(c, Template)
  }

  /**
    A title line of a composed text: the title at the line's offset, a
    newline after it unless it ends the text, and two newlines before it
    when an empty line separates it from an earlier line.
   */
  lemma TitleLineIn(c: BindingMap, tpl: seq<Line>, k: nat)
    requires Renderable(c, tpl)
    requires k < |tpl| && tpl[k].Title?
    ensures OccursAt(Compose(c, tpl), tpl[k].text, LineOffset(RenderLines(c, tpl), k))
    ensures k < |tpl| - 1 ==>
      OccursAt(Compose(c, tpl), "\n", LineOffset(RenderLines(c, tpl), k) + |tpl[k].text|)
    ensures 2 <= k && tpl[k - 1].Blank? ==>
      OccursAt(Compose(c, tpl), "\n\n", LineOffset(RenderLines(c, tpl), k) - 2)
  {
    var lines := RenderLines(c, tpl);
    assert lines[k] == tpl[k].text;
    LineAt(lines, k);
    if 2 <= k && tpl[k - 1].Blank? {
      assert lines[k - 1] == "";
      BlankBefore(lines, k);
    }
  }

  /** A title line after an empty line in a composed text: `\n\n<title>\n`. */
  lemma SectionSeparatedIn(c: BindingMap, tpl: seq<Line>, k: nat)
    requires Renderable(c, tpl)
    requires 2 <= k < |tpl| - 1 && tpl[k].Title? && tpl[k - 1].Blank?
    ensures OccursAt(Compose(c, tpl), "\n\n", LineOffset(RenderLines(c, tpl), k) - 2)
    ensures OccursAt(Compose(c, tpl), tpl[k].text + "\n", LineOffset(RenderLines(c, tpl), k))
  {
    TitleLineIn(c, tpl, k);
    OccursAdjacent(Compose(c, tpl), tpl[k].text, "\n", LineOffset(RenderLines(c, tpl), k));
  }

  /**
    In the help text, a section title after an empty line is set off by two
    newlines before it and one after it: `...\n\n<title>\n...`. The
    Applying and Essential titles are such lines (see `TemplateShape`).
   */
  lemma SectionSeparated(c: BindingMap, k: nat)
    requires Renderable(c, Template)
    requires 2 <= k < |Template| - 1 && Template[k].Title? && Template[k - 1].Blank?
    ensures OccursAt(CreateHelpText(c), "\n\n", LineOffset(RenderLines(c, Template), k) - 2)
    ensures OccursAt(CreateHelpText(c), Template[k].text + "\n", LineOffset(RenderLines(c, Template), k))
  {
    SectionSeparatedIn(c, Template, k);
  }

  /** Whatever occurs in line `k` of `tpl` occurs in the composed text, shifted by the line's offset. */
  lemma {:induction false} InComposed(c: BindingMap, tpl: seq<Line>, k: nat, part: string, pos: int)
    requires Renderable(c, tpl)
    requires k < |tpl|
    requires OccursAt(RenderLine(c, tpl[k]), part, pos)
    ensures OccursAt(Compose(c, tpl), part, LineOffset(RenderLines(c, tpl), k) + pos)
  {
    var lines := RenderLines(c, tpl);
    assert lines[k] == RenderLine(c, tpl[k]);
    LineAt(lines, k);
    OccursWithin(Compose(c, tpl), lines[k], part, LineOffset(lines, k), pos);
  }

  /**
    A key row left-aligns the token in a column of width 9 before its
    description: the token, the spaces it falls short by, the description;
    a longer token is followed directly by the description.
   */
  lemma KeyRowLayout(c: BindingMap, line: Line)
    requires line.KeyRow? && line.command in c
    ensures var key := c[line.command];
      |key| <= KeyColumn ==>
        RenderLine(c, line) == Indent + key + Spaces(KeyColumn - |key|) + line.description
    ensures var key := c[line.command];
      |key| > KeyColumn ==>
        RenderLine(c, line) == Indent + key + line.description
  {
    var key := c[line.command];
    var texts := [key, line.description];
    assert texts[..1] == [key];
    assert JoinTexts(KeyColumn, texts) == key + Spaces(Padding(KeyColumn, key)) + line.description;
  }

  /** Within its line, a key row's description starts 9 columns after the token. */
  lemma KeyRowCells(c: BindingMap, line: Line)
    requires line.KeyRow? && line.command in c
    requires |c[line.command]| <= KeyColumn
    ensures OccursAt(RenderLine(c, line), c[line.command], |Indent|)
    ensures OccursAt(RenderLine(c, line), line.description, |Indent| + KeyColumn)
  {
    var key := c[line.command];
    var d := line.description;
    var gap := Spaces(KeyColumn - |key|);
    KeyRowLayout(c, line);
    assert RenderLine(c, line) == Indent + key + (gap + d);
    OccursInMiddle(Indent, key, gap + d);
    assert RenderLine(c, line) == (Indent + key + gap) + d;
    assert OccursAt(d, d, 0);
    OccursAfter(Indent + key + gap, d, d, 0);
  }

  /** In a composed text, a key row whose token fits shows the description 9 columns after the token. */
  lemma KeyRowColumnsIn(c: BindingMap, tpl: seq<Line>, k: nat)
    requires Renderable(c, tpl)
    requires k < |tpl| && tpl[k].KeyRow?
    requires |c[tpl[k].command]| <= KeyColumn
    ensures OccursAt(Compose(c, tpl), c[tpl[k].command], LineOffset(RenderLines(c, tpl), k) + |Indent|)
    ensures OccursAt(Compose(c, tpl), tpl[k].description, LineOffset(RenderLines(c, tpl), k) + |Indent| + KeyColumn)
  {
    KeyRowCells(c, tpl[k]);
    InComposed(c, tpl, k, c[tpl[k].command], |Indent|);
    InComposed(c, tpl, k, tpl[k].description, |Indent| + KeyColumn);
  }

  /** In a composed text, a key row shows its token right after the indent, however long the token is. */
  lemma KeyRowTokenIn(c: BindingMap, tpl: seq<Line>, k: nat)
    requires Renderable(c, tpl)
    requires k < |tpl| && tpl[k].KeyRow?
    ensures OccursAt(Compose(c, tpl), c[tpl[k].command], LineOffset(RenderLines(c, tpl), k) + |Indent|)
  {
    var key := c[tpl[k].command];
    var joined := JoinTexts(KeyColumn, [key, tpl[k].description]);
    FragmentAt(KeyColumn, [key, tpl[k].description], 0);
    assert OccursAt(joined, key, 0);
    OccursAfter(Indent, joined, key, 0);
    InComposed(c, tpl, k, key, |Indent|);
  }

  /** In the help text, an Essential row shows its token right after the indent. */
  lemma KeyRowToken(c: BindingMap, k: nat)
    requires Renderable(c, Template)
    requires k < |Template| && Template[k].KeyRow?
    ensures OccursAt(CreateHelpText(c), c[Template[k].command], LineOffset(RenderLines(c, Template), k) + |Indent|)
  {
    KeyRowTokenIn(c, Template, k);
  }

  /** In the help text, an Essential row whose token fits shows its description 9 columns after the token. */
  lemma KeyRowDescription(c: BindingMap, k: nat)
    requires Renderable(c, Template)
    requires k < |Template| && Template[k].KeyRow?
    requires |c[Template[k].command]| <= KeyColumn
    ensures OccursAt(CreateHelpText(c), Template[k].description, LineOffset(RenderLines(c, Template), k) + |Indent| + KeyColumn)
  {
    KeyRowColumnsIn(c, Template, k);
  }

  /** Within its line, all the cells of an entry row whose cells fit stand on the row's column grid at once. */
  lemma RowCells(c: BindingMap, line: Line)
    requires line.Row?
    requires forall j :: 0 <= j < |line.entries| - 1 ==> |EntryText(c, line.entries[j])| <= line.width
    ensures forall j :: 0 <= j < |line.entries| ==>
      OccursAt(RenderLine(c, line), EntryText(c, line.entries[j]), |Indent| + j * line.width)
  {
    forall j | 0 <= j < |line.entries|
      ensures OccursAt(RenderLine(c, line), EntryText(c, line.entries[j]), |Indent| + j * line.width)
    {
      RowCellAt(c, line, j);
    }
  }

  /** Fragment `j` of fragments that fit, joined after the indent, starts `j` widths after it. */
  lemma {:induction false} IndentedAligned(w: int, texts: seq<string>, j: nat)
    requires j < |texts|
    requires forall i :: 0 <= i < |texts| - 1 ==> |texts[i]| <= w
    ensures OccursAt(Indent + JoinTexts(w, texts), texts[j], |Indent| + j * w)
  {
    IndentedFragment(w, texts, j);
    ColumnsAligned(w, texts);
  }

  /** Within its line, cell `j` of an entry row whose cells fit starts `j` widths after the indent. */
  lemma {:induction false} RowCellAt(c: BindingMap, line: Line, j: nat)
    requires line.Row? && j < |line.entries|
    requires forall i :: 0 <= i < |line.entries| - 1 ==> |EntryText(c, line.entries[i])| <= line.width
    ensures OccursAt(RenderLine(c, line), EntryText(c, line.entries[j]), |Indent| + j * line.width)
  {
    var texts := EntryTexts(c, line.entries);
    assert forall i :: 0 <= i < |texts| - 1 ==> |texts[i]| <= line.width;
    IndentedAligned(line.width, texts, j);
    assert texts[j] == EntryText(c, line.entries[j]);
  }

  /** Wherever a cell occurs, its token starts it and its caption follows one blank after the token. */
  lemma CellWords(s: string, c: BindingMap, e: Entry, p: int)
    requires OccursAt(s, EntryText(c, e), p)
    ensures OccursAt(s, Interpolate(c, e.command), p)
    ensures OccursAt(s, e.caption, p + |Interpolate(c, e.command)| + 1)
  {
    OccursWords(s, Interpolate(c, e.command), e.caption, p);
  }

  /**
    Within its line, cell `j` of an entry row whose cells fit is its command's
    token starting `j` widths after the indent, then its caption one blank
    after the token.
   */
  lemma {:induction false} RowCellParts(c: BindingMap, line: Line, j: nat)
    requires line.Row? && j < |line.entries|
    requires forall i :: 0 <= i < |line.entries| - 1 ==> |EntryText(c, line.entries[i])| <= line.width
    ensures OccursAt(RenderLine(c, line), Interpolate(c, line.entries[j].command), |Indent| + j * line.width)
    ensures OccursAt(RenderLine(c, line), line.entries[j].caption,
                     |Indent| + j * line.width + |Interpolate(c, line.entries[j].command)| + 1)
  {
    RowCellAt(c, line, j);
    CellWords(RenderLine(c, line), c, line.entries[j], |Indent| + j * line.width);
  }

  /** In a composed text, cell `j` of an entry row whose cells fit starts `j` widths after the indent. */
  lemma {:induction false} RowCellIn(c: BindingMap, tpl: seq<Line>, k: nat, j: nat)
    requires Renderable(c, tpl)
    requires k < |tpl| && tpl[k].Row? && j < |tpl[k].entries|
    requires forall i :: 0 <= i < |tpl[k].entries| - 1 ==> |EntryText(c, tpl[k].entries[i])| <= tpl[k].width
    ensures OccursAt(Compose(c, tpl), EntryText(c, tpl[k].entries[j]),
                     LineOffset(RenderLines(c, tpl), k) + |Indent| + j * tpl[k].width)
  {
    var line := tpl[k];
    var cell := EntryText(c, line.entries[j]);
    var pos := |Indent| + j * line.width;
    RowCellAt(c, line, j);
    InComposed(c, tpl, k, cell, pos);
  }

  /**
    A command the table lacks does not stop an entry row from rendering: in a
    composed text its cell shows `undefined` `j` widths after the indent, and
    its caption one blank after that.
   */
  lemma {:induction false} UndefinedCellIn(c: BindingMap, tpl: seq<Line>, k: nat, j: nat)
    requires Renderable(c, tpl)
    requires k < |tpl| && tpl[k].Row? && j < |tpl[k].entries|
    requires forall i :: 0 <= i < |tpl[k].entries| - 1 ==> |EntryText(c, tpl[k].entries[i])| <= tpl[k].width
    requires tpl[k].entries[j].command !in c
    ensures OccursAt(Compose(c, tpl), "undefined",
                     LineOffset(RenderLines(c, tpl), k) + |Indent| + j * tpl[k].width)
    ensures OccursAt(Compose(c, tpl), tpl[k].entries[j].caption,
                     LineOffset(RenderLines(c, tpl), k) + |Indent| + j * tpl[k].width + |"undefined"| + 1)
  {
    var pos := LineOffset(RenderLines(c, tpl), k) + |Indent| + j * tpl[k].width;
    RowCellIn(c, tpl, k, j);
    CellWords(Compose(c, tpl), c, tpl[k].entries[j], pos);
  }

  /**
    The same for a single-cell line: with its command missing from the table
    it reads `undefined`, a blank and its caption right after the indent.
   */
  lemma {:induction false} UndefinedSingleIn(c: BindingMap, tpl: seq<Line>, k: nat)
    requires Renderable(c, tpl)
    requires k < |tpl| && tpl[k].Single?
    requires tpl[k].entry.command !in c
    ensures OccursAt(Compose(c, tpl), "undefined", LineOffset(RenderLines(c, tpl), k) + |Indent|)
    ensures OccursAt(Compose(c, tpl), tpl[k].entry.caption, LineOffset(RenderLines(c, tpl), k) + |Indent| + |"undefined"| + 1)
  {
    var line := tpl[k];
    var cell := EntryText(c, line.entry);
    assert OccursAt(cell, cell, 0);
    OccursAfter(Indent, cell, cell, 0);
    assert RenderLine(c, line) == Indent + cell;
    InComposed(c, tpl, k, cell, |Indent|);
    CellWords(Compose(c, tpl), c, line.entry, LineOffset(RenderLines(c, tpl), k) + |Indent|);
  }

  /**
    In the help text, an entry cell whose command the table lacks, in a row
    whose cells fit, shows `undefined` `j` widths after the indent and its
    caption one blank later.
   */
  lemma UndefinedCell(c: BindingMap, k: nat, j: nat)
    requires Renderable(c, Template)
    requires k < |Template| && Template[k].Row? && j < |Template[k].entries|
    requires forall i :: 0 <= i < |Template[k].entries| - 1 ==>
      |EntryText(c, Template[k].entries[i])| <= Template[k].width
    requires Template[k].entries[j].command !in c
    ensures OccursAt(CreateHelpText(c), "undefined",
                     LineOffset(RenderLines(c, Template), k) + |Indent| + j * Template[k].width)
    ensures OccursAt(CreateHelpText(c), Template[k].entries[j].caption,
                     LineOffset(RenderLines(c, Template), k) + |Indent| + j * Template[k].width + |"undefined"| + 1)
  {
    UndefinedCellIn(c, Template, k, j);
  }

  /** In the help text, a single-cell line whose command the table lacks reads `undefined`, a blank and its caption. */
  lemma UndefinedSingle(c: BindingMap, k: nat)
    requires Renderable(c, Template)
    requires k < |Template| && Template[k].Single?
    requires Template[k].entry.command !in c
    ensures OccursAt(CreateHelpText(c), "undefined", LineOffset(RenderLines(c, Template), k) + |Indent|)
    ensures OccursAt(CreateHelpText(c), Template[k].entry.caption,
                     LineOffset(RenderLines(c, Template), k) + |Indent| + |"undefined"| + 1)
  {
    UndefinedSingleIn(c, Template, k);
  }

  /** In a composed text, every cell of an entry row whose cells fit starts its number of widths after the indent. */
  lemma RowAlignedIn(c: BindingMap, tpl: seq<Line>, k: nat)
    requires Renderable(c, tpl)
    requires k < |tpl| && tpl[k].Row?
    requires forall j :: 0 <= j < |tpl[k].entries| - 1 ==> |EntryText(c, tpl[k].entries[j])| <= tpl[k].width
    ensures forall j :: 0 <= j < |tpl[k].entries| ==>
      OccursAt(Compose(c, tpl), EntryText(c, tpl[k].entries[j]),
               LineOffset(RenderLines(c, tpl), k) + |Indent| + j * tpl[k].width)
  {
    forall j | 0 <= j < |tpl[k].entries|
      ensures OccursAt(Compose(c, tpl), EntryText(c, tpl[k].entries[j]),
                       LineOffset(RenderLines(c, tpl), k) + |Indent| + j * tpl[k].width)
    {
      RowCellIn(c, tpl, k, j);
    }
  }

  /**
    Column alignment of an entry row of the help screen: when every cell but
    the last fits the row's width, cell `j` starts `j` widths after the indent.
   */
  lemma RowAligned(c: BindingMap, k: nat)
    requires Renderable(c, Template)
    requires k < |Template| && Template[k].Row?
    requires forall j :: 0 <= j < |Template[k].entries| - 1 ==>
      |EntryText(c, Template[k].entries[j])| <= Template[k].width
    ensures forall j :: 0 <= j < |Template[k].entries| ==>
      OccursAt(CreateHelpText(c), EntryText(c, Template[k].entries[j]),
               LineOffset(RenderLines(c, Template), k) + |Indent| + j * Template[k].width)
  {
    RowAlignedIn(c, Template, k);
  }

  /**
    A default list that names every command of the template yields a table
    that renders, whatever the overrides, and no lookup falls back to `undefined`.
   */
  lemma DefaultsCoverTemplate(defaults: seq<Binding>, overrides: seq<Binding>)
    requires TemplateCommands() <= Commands(defaults)
    ensures Renderable(GenerateBindings(defaults, overrides), Template)
    ensures forall k, command :: 0 <= k < |Template| && command in LineCommands(Template[k]) ==>
      command in GenerateBindings(defaults, overrides)
  {
    var c := GenerateBindings(defaults, overrides);
    forall k, command | 0 <= k < |Template| && command in LineCommands(Template[k])
      ensures command in c
    {
      assert command in TemplateCommands();
    }
    forall k | 0 <= k < |Template|
      ensures LineRenderable(c, Template[k])
    {
      if Template[k].KeyRow? {
        assert Template[k].command in LineCommands(Template[k]);
      }
    }
  }
}

=== FILE: key_display.dfy ===
/**
  Normalisation of one raw key chord (`"shift+b"`, `"enter"`, `"ctrl+x"`)
  into the token the help screen shows for it.

  The rules are tried in order: a chord containing `shift+` or `shift-`
  followed by an ASCII letter anywhere shows its suffix from offset 6,
  upper-cased; `enter` shows as `RET`; `tab` shows as `TAB`; anything else
  is shown as written.
 */
module KeyDisplay {

  predicate IsAsciiLetter(ch: char)
  {
    'a' <= ch <= 'z' || 'A' <= ch <= 'Z'
  }

  predicate IsAsciiLower(ch: char)
  {
    'a' <= ch <= 'z'
  }

  /** ASCII upper-casing of one character; every other character is kept. */
  function UpperChar(ch: char): (u: char)
    ensures !IsAsciiLower(u)
    ensures IsAsciiLower(ch) ==> u as int == ch as int - 32
    ensures !IsAsciiLower(ch) ==> u == ch
  {
    if IsAsciiLower(ch) then (ch as int - 32) as char else ch
  }

  /** ASCII upper-casing of a string, character by character; no lower-case letter is left. */
  function UpperAscii(s: string): (r: string)
    ensures |r| == |s|
    ensures forall i :: 0 <= i < |s| ==> r[i] == UpperChar(s[i])
    ensures forall i :: 0 <= i < |r| ==> !IsAsciiLower(r[i])
  {
    seq(|s|, i requires 0 <= i < |s| => UpperChar(s[i]))
  }

  /** Upper-casing leaves a string unchanged exactly when it holds no lower-case ASCII letter. */
  lemma UpperAsciiFixed(s: string)
    ensures UpperAscii(s) == s <==> forall i :: 0 <= i < |s| ==> !IsAsciiLower(s[i])
  {
  }

  /** Upper-casing twice is upper-casing once. */
  lemma UpperAsciiIdempotent(s: string)
    ensures UpperAscii(UpperAscii(s)) == UpperAscii(s)
  {
  }

  /** `shift`, then `+` or `-`, then an ASCII letter, starting at offset `i` of `s`. */
  predicate ShiftChordAt(s: string, i: int)
  {
    && 0 <= i
    && i + 7 <= |s|
    && s[i..i + 5] == "shift"
    && (s[i + 5] == '+' || s[i + 5] == '-')
    && IsAsciiLetter(s[i + 6])
  }

  /** `s` contains a shift chord somewhere: what the source's regular expression tests. */
  ghost predicate HasShiftChord(s: string)
  {
    exists i :: ShiftChordAt(s, i)
  }

  /** Left-to-right search for a shift chord starting at or after `from`. */
  function ShiftChordFrom(s: string, from: nat): (found: bool)
    ensures found <==> exists i :: from <= i && ShiftChordAt(s, i)
    decreases |s| - from
  {
    if from + 7 > |s| then false
    else if ShiftChordAt(s, from) then true
    else ShiftChordFrom(s, from + 1)
  }

  /** The display token for the raw key chord `bind`. */
  function DisplayKey(bind: string): (r: string)
    ensures HasShiftChord(bind) ==> |bind| >= 7 && r == UpperAscii(bind[6..])
    ensures HasShiftChord(bind) ==> |r| == |bind| - 6
    ensures bind == "enter" ==> r == "RET"
    ensures bind == "tab" ==> r == "TAB"
    ensures !HasShiftChord(bind) && bind != "enter" && bind != "tab" ==> r == bind
  {
    if ShiftChordFrom(bind, 0) then UpperAscii(bind[6..])
    else if bind == "enter" then "RET"
    else if bind == "tab" then "TAB"
    else bind
  }

  /** An upper-cased string holds no shift chord, since `shift` is lower case. */
  lemma UpperHasNoShiftChord(s: string)
    ensures !HasShiftChord(UpperAscii(s))
  {
    var r := UpperAscii(s);
    forall i | 0 <= i
      ensures !ShiftChordAt(r, i)
    {
      if i + 5 <= |r| {
        assert r[i..i + 5][0] == r[i];
        assert !IsAsciiLower(r[i]);
      }
    }
  }

  /** Normalising a display token again leaves it as it is. */
  lemma DisplayKeyIdempotent(bind: string)
    ensures DisplayKey(DisplayKey(bind)) == DisplayKey(bind)
  {
    var r := DisplayKey(bind);
    if HasShiftChord(bind) {
      UpperHasNoShiftChord(bind[6..]);
      assert !IsAsciiLower(r[0]);
      assert r != "enter" && r != "tab";
    }
  }

  /** `shift+` or `shift-` and a letter: the suffix from offset 6, upper-cased. */
  lemma DisplayKeyShiftExamples()
    ensures DisplayKey("shift+b") == "B"
    ensures DisplayKey("shift-k") == "K"
  {
  }

  /** The shift rule keeps everything after offset 6, so a named key stays whole. */
  lemma DisplayKeyShiftEnterExample()
    ensures DisplayKey("shift+enter") == "ENTER"
  {
  }

  /**
    The shift chord is searched for anywhere, but the suffix is always taken
    from offset 6: with a modifier in front the display loses the `s`.
   */
  lemma DisplayKeyModifiedShiftExample()
    ensures DisplayKey("ctrl+shift+b") == "HIFT+B"
  {
    assert ShiftChordAt("ctrl+shift+b", 5);
    assert UpperAscii("hift+b") == "HIFT+B";
  }

  /** The named keys and the fall-through case. */
  lemma DisplayKeyPlainExamples()
    ensures DisplayKey("enter") == "RET"
    ensures DisplayKey("tab") == "TAB"
    ensures DisplayKey("ctrl+x") == "ctrl+x"
  {
  }
}

=== FILE: strings.dfy ===
/**
  Small string facts shared by the help-screen model: runs of spaces, the
  total length of a list of strings, and "this string sits at that offset".
 */
module Strings {

  /** `n` space characters, as `' '.repeat(n)` yields them. */
  function Spaces(n: nat): (r: string)
    ensures |r| == n
    ensures forall i :: 0 <= i < n ==> r[i] == ' '
  {
    seq(n, _ => ' ')
  }

  /** The sum of the lengths of `ss`. */
  function SumLengths(ss: seq<string>): nat
  {
    if |ss| == 0 then 0 else SumLengths(ss[..|ss| - 1]) + |ss[|ss| - 1]|
  }

  /** `part` occurs in `s` starting at offset `pos`. */
  predicate OccursAt(s: string, part: string, pos: int)
  {
    0 <= pos && pos + |part| <= |s| && s[pos..pos + |part|] == part
  }

  /** A longer prefix of `ss` has at least the total length of a shorter one. */
  lemma {:induction false} SumLengthsMonotone(ss: seq<string>, i: nat, j: nat)
    requires i <= j <= |ss|
    ensures SumLengths(ss[..i]) <= SumLengths(ss[..j])
    decreases j - i
  {
    if i < j {
      SumLengthsMonotone(ss, i, j - 1);
      assert ss[..j][..j - 1] == ss[..j - 1];
    }
  }

  /** An occurrence inside an occurrence is an occurrence at the summed offset. */
  lemma OccursWithin(s: string, a: string, b: string, p: int, q: int)
    requires OccursAt(s, a, p) && OccursAt(a, b, q)
    ensures OccursAt(s, b, p + q)
  {
    forall k | 0 <= k < |b|
      ensures s[p + q + k] == b[k]
    {
      assert a[q + k] == b[k];
      assert s[p + (q + k)] == a[q + k];
    }
  }

  /** An occurrence of a concatenation is an occurrence of each half, the second right after the first. */
  lemma OccursSplit(s: string, x: string, y: string, p: int)
    requires OccursAt(s, x + y, p)
    ensures OccursAt(s, x, p) && OccursAt(s, y, p + |x|)
  {
    assert s[p..p + |x|] == (x + y)[..|x|];
    assert s[p + |x|..p + |x| + |y|] == (x + y)[|x|..];
  }

  /** An occurrence of two words joined by a blank is an occurrence of each word. */
  lemma OccursWords(s: string, x: string, y: string, p: int)
    requires OccursAt(s, x + " " + y, p)
    ensures OccursAt(s, x, p) && OccursAt(s, y, p + |x| + 1)
  {
    OccursSplit(s, x + " ", y, p);
    OccursSplit(s, x, " ", p);
  }

  /** An occurrence in `y` is one in `x + y`, shifted by the length of `x`. */
  lemma OccursAfter(x: string, y: string, part: string, pos: int)
    requires OccursAt(y, part, pos)
    ensures OccursAt(x + y, part, |x| + pos)
  {
  }

  /** The middle part of a three-part concatenation sits right after the first part. */
  lemma OccursInMiddle(x: string, y: string, z: string)
    ensures OccursAt(x + y + z, y, |x|)
  {
  }

  /** Two occurrences side by side are an occurrence of their concatenation. */
  lemma OccursAdjacent(s: string, a: string, b: string, p: int)
    requires OccursAt(s, a, p) && OccursAt(s, b, p + |a|)
    ensures OccursAt(s, a + b, p)
  {
  }

  /** Two newlines side by side make a blank line's break. */
  lemma DoubleNewline(s: string, p: int)
    requires OccursAt(s, "\n", p) && OccursAt(s, "\n", p + 1)
    ensures OccursAt(s, "\n\n", p)
  {
  }

  /** An occurrence in `x` is one in every extension of `x`. */
  lemma OccursInExtension(x: string, whole: string, part: string, pos: int)
    requires x <= whole
    requires OccursAt(x, part, pos)
    ensures OccursAt(whole, part, pos)
  {
  }
}
